=== FILE: README.md ===
# Inventory backend: a Dafny model of its decision logic

The inventory backend is a small Next.js service over an in-memory store
(`app/api/data.ts`) of products, stock records, suppliers, purchase orders and
return tickets. Three routes carry its decisions:

- **create-order** validates a request for a product and quantity. It keeps
  the suppliers that offer the product and whose minimum order quantity (MOQ)
  the quantity reaches. It scores each of them under an optimisation goal
  (cost, speed, reliability or balance) and keeps the first supplier whose
  score beats the running maximum, which starts at -1. It then appends a
  pending purchase order due after the supplier's lead time.
- **reorder-suggetions** computes, for every product with a stock record, a
  reorder point. This is the daily sales times the (ceiling of the mean)
  supplier lead time, plus a safety buffer. When stock is below that point,
  it suggests a quantity that covers the shortfall and reaches the smallest
  MOQ on offer.
- **check-po-status** derives a reported status for every purchase order
  whose expected delivery date parses. Pending and shipped orders at least
  one whole day late become delayed, with the number of days overdue.

The model is functional. The module-level arrays and counters become one
immutable `Store` value, which the update and append functions return
changed. Each route is a pure function or a method over that value. The
clock reading is a parameter `now` in integer milliseconds. The `YYYYMMDD`
text that starts generated ids is a parameter `stamp`. A date either parses
to an instant (`At(ms)`) or does not (`Unparseable`). Prices, rates, sales
figures and safety fractions are exact `real`s. Quantities, MOQs and lead
times are `int`s.

Modules, one per file:
- `Wrappers`: `Option`, `Result`, and `Present`, which keeps the present
  values of a sequence of options.
- `Numeric`: the ceiling, sum, mean and minimum.
- `Ids`: decimal digits, `padStart` and generated identifiers.
- `Entities`: the records of `data.ts`.
- `EntityStore`: the store, its lookups, updates, appends and seeded data.
- `Scoring`: goals, score formulas and the selection loop.
- `Orders`: the create-order route.
- `Reorder`: the reorder-suggestion route.
- `StatusTracker`: the status route.

## Model

| member | source | states |
|---|---|---|
| EntityStore.GetProduct | app/api/data.ts:215 | The result is absent exactly when no product has the id. Otherwise it is the product at the first position with that id. |
| EntityStore.GetStock | app/api/data.ts:216 | The result is absent exactly when no stock record has the product id. Otherwise it is the first record with that id. |
| EntityStore.GetSupplier | app/api/data.ts:217 | The result is absent exactly when no supplier has the id. Otherwise it is the first supplier with that id. |
| EntityStore.UpdateStockQuantity | app/api/data.ts:223-231 | Reports true exactly when some stock record has the product. On a miss the store is unchanged. On a hit, only the first matching record changes: its quantity grows by `change` and it is stamped `now`. Every other record and the rest of the store stay as they were. |
| EntityStore.AddPurchaseOrder | app/api/data.ts:233-243 | The counter grows by exactly one and one order is appended at the end. Nothing else in the store changes. The order's id is `PO-` + stamp + `-` + the padded new counter, its order date is `now`, and it carries every caller-supplied field unchanged. |
| EntityStore.AddReturnTicket | app/api/data.ts:245-255 | The same behaviour on the return tickets, with the `RT-` prefix and the return counter. |
| EntityStore.AddPurchaseOrderKeepsIdsUnique | app/api/data.ts:233-242 | If every order id carries a distinct sequence number in 1..counter, an append keeps this true, so all order ids stay pairwise distinct. |
| EntityStore.AddReturnTicketKeepsIdsUnique | app/api/data.ts:245-254 | The same invariant and distinctness for return ids. |
| EntityStore.AppendGeneratedCounted | app/api/data.ts:235-237 | An id generated from counter + 1 carries a number none of the existing ids carries. |
| EntityStore.CountedIdsDistinct | app/api/data.ts:233-237 | Ids whose sequence numbers are pairwise distinct are themselves pairwise distinct. |
| EntityStore.InitialStore | app/api/data.ts:233 | At module load each counter equals the number of seeded records of its kind. |
| EntityStore.InitialStoreIdsCounted | app/api/data.ts:180-212 | The seeded ids end in 001 and 002 for orders and 001 for returns. The counters start at 2 and 1, so the invariant holds from the start and later ids never repeat a seeded one. |
| EntityStore.SuppliersOffering | app/api/inventory/create-order/route.ts:34 | The result holds exactly the suppliers whose offers contain the product, and is no longer than the supplier list. |
| EntityStore.OfferingFollowsSuppliers | app/api/inventory/create-order/route.ts:34 | The filter keeps store order. Each kept supplier comes from a store position, the positions strictly increase, and every supplier offering the product is kept. So first-wins ties among the candidates are first-wins ties in the store. |
| Ids.Digits | app/api/data.ts:237 | `String(n)`: at least one character, all decimal digits, and no leading zero unless the number is 0. |
| Ids.ParseDigitsOfDigits | app/api/data.ts:237 | Reading the decimal form back as a number gives the counter. |
| Ids.DigitsLength | app/api/data.ts:237 | The decimal form has at most three digits exactly when the number is below 1000. |
| Ids.PadStart | app/api/data.ts:237 | `padStart(width, '0')`: the length is the larger of the width and the input length, the input is a suffix, and everything before it is '0'. |
| Ids.SequenceSuffix | app/api/data.ts:237 | The id suffix has length max(3, number of digits of n) and consists of digits. |
| Ids.SuffixRoundTrip | app/api/data.ts:237 | Reading the suffix as a decimal number gives n back. |
| Ids.SuffixInjective | app/api/data.ts:237 | Different counters give different suffixes. |
| Ids.SequenceNumberOfGenerated | app/api/data.ts:237 | The counter can be recovered from a generated id with an eight-character stamp. |
| Ids.GeneratedIdsDistinct | app/api/data.ts:237 | Ids generated from different counters differ, whatever the date stamps. |
| Scoring.ParseGoal | app/api/inventory/create-order/route.ts:19 | The goal is cost, speed or reliability exactly when the field names it. An absent field, or any other text, selects balance. |
| Scoring.Score | app/api/inventory/create-order/route.ts:61-93 | Each goal's formula, stated with its denominators cleared. Cost: 10·price·score = 10000 + 100·rate·price + (100 − lead)·price. Speed: price·lead·score = 1000·price + 10·rate·price·lead + 10·lead. Reliability: 10·price·score = 10000·rate·price + 100 + (100 − lead)·price. Balance: price·lead·score = 500·rate·price·lead + 1000·lead + 100·price. With a non-zero price and lead time, each equation fixes the score. |
| Scoring.CheaperScoresHigher | app/api/inventory/create-order/route.ts:64-93 | Under every goal a lower positive price scores strictly higher, all else equal. |
| Scoring.FasterScoresHigher | app/api/inventory/create-order/route.ts:64-93 | Under every goal a shorter positive lead time scores strictly higher. |
| Scoring.ReliableScoresHigher | app/api/inventory/create-order/route.ts:64-93 | Under every goal a higher on-time rate scores strictly higher. |
| Scoring.BestIsUnique | app/api/inventory/create-order/route.ts:95-98 | At most one candidate beats all earlier ones strictly and the later ones weakly, so the choice is determined. |
| Scoring.SelectSupplier | app/api/inventory/create-order/route.ts:43-99 | The chosen supplier offers the product and its MOQ is at most the quantity. Its score is above -1, at least every qualifying score, and strictly above every earlier qualifying score, so ties go to the first. Nothing is chosen exactly when no qualifying supplier scores above -1. |
| Orders.ExpectedDelivery | app/api/inventory/create-order/route.ts:109-111 | The expected delivery lies exactly the lead time in whole days after the order time. |
| Orders.PlaceOrder | app/api/inventory/create-order/route.ts:19-129 | Refused as invalid exactly when the product id is empty or the quantity is not positive. Not found for each of three reasons exactly when it applies: unknown product, no supplier offers it, or no supplier meets the MOQ with a score above -1. A refusal leaves the store unchanged. On success the supplier is the selection loop's choice, and the order is pending with no actual delivery, the requested product and quantity, and delivery due after the supplier's lead time. The new store is `addPurchaseOrder` applied to that order. Stock is never changed. Defined scores are required only of valid requests for known products, so both early refusals hold for any store. |
| Orders.SeededBalanceScores | app/api/inventory/create-order/route.ts:86-92 | With the seeded offers for P001, S001 scores above 491.36 and S002 below 460.27 under balance. |
| Orders.SeededOfferingP001 | app/api/data.ts:129-172 | All three seeded suppliers offer P001. |
| Orders.SeededBestP001 | app/api/inventory/create-order/route.ts:56-59 | For 50 units of P001 under balance, every scored supplier has a defined score. S002 meets its MOQ of 30, S003 fails its MOQ of 100, and S001 is the best candidate. |
| Orders.SeededOrderExample | app/api/inventory/create-order/route.ts:19-122 | On the seeded store, ordering 50 units of P001 with no goal succeeds and chooses S001. |
| Numeric.Ceil | app/api/inventory/reorder-suggetions/route.ts:56-59 | The ceiling is the least integer at or above its argument. |
| Numeric.Mean | app/api/inventory/reorder-suggetions/route.ts:45 | `math.mean` on a non-empty list: the mean times the count is the sum. |
| Numeric.Min | app/api/inventory/reorder-suggetions/route.ts:77 | `Math.min`: the result is at most every element and equal to one of them. |
| Numeric.CeilMeanWithin | app/api/inventory/reorder-suggetions/route.ts:45 | The rounded-up mean of integers between lo and hi is itself between lo and hi. |
| Reorder.AverageLeadTime | app/api/inventory/reorder-suggetions/route.ts:41-49 | With offering suppliers, the reported average is the least integer at or above their mean lead time. With none, it is 7. |
| Reorder.AverageLeadTimeWithin | app/api/inventory/reorder-suggetions/route.ts:41-45 | The average lies between the shortest and the longest offered lead time. |
| Reorder.EffectiveLeadTime | app/api/inventory/reorder-suggetions/route.ts:52 | `Math.max(1, average)`: at least 1 and at least the average. It equals the average when that is at least 1, and 1 otherwise. |
| Reorder.ReorderPoint | app/api/inventory/reorder-suggetions/route.ts:56-59 | The reorder point is the least integer at or above sales times lead time plus sales times the safety fraction. |
| Reorder.ReorderPointMonotone | app/api/inventory/reorder-suggetions/route.ts:56-59 | With non-negative inputs the reorder point never decreases as sales, lead time or safety fraction grow. |
| Reorder.MinMoq | app/api/inventory/reorder-suggetions/route.ts:71-79 | Without offering suppliers the result is 1. Otherwise it is the smallest MOQ among them: at most each of their MOQs and equal to one of them. |
| Reorder.SuggestedQuantity | app/api/inventory/reorder-suggetions/route.ts:63-83 | The quantity is at least 1, at least the smallest MOQ, and brings the stock up to the reorder point. It is one of 1, the MOQ or the shortfall. |
| Reorder.Decide | app/api/inventory/reorder-suggetions/route.ts:62-96 | There is a suggestion exactly when stock is below the reorder point. It reports the product's fields, the given average lead time and the reorder point. Its quantity is at least 1, at least the smallest MOQ, and brings stock up to the reorder point. |
| Reorder.SuggestFor | app/api/inventory/reorder-suggetions/route.ts:24-97 | There is no suggestion when the product has no stock record. Otherwise the decision uses the first matching record's quantity and the unclamped average lead time of the offering suppliers. It uses the reorder point computed from the clamped lead time and the smallest MOQ among those suppliers. |
| Reorder.SuggestionsFollowProducts | app/api/inventory/reorder-suggetions/route.ts:24-98 | Each suggestion belongs to one product position, positions strictly increase, and every product whose loop body suggests something is represented. The result is at most one suggestion per product, in product order. |
| Reorder.SuggestReorders | app/api/inventory/reorder-suggetions/route.ts:20-100 | The route makes at most one suggestion per product. SuggestionsFollowProducts gives which product and in what order. |
| Reorder.NoStockNoSuggestion | app/api/inventory/reorder-suggetions/route.ts:25-31 | Every suggested product has a stock record. |
| Reorder.WorkedExample | app/api/inventory/reorder-suggetions/route.ts:45-83 | Lead times 7, 3 and 10 average to 7. Sales of 10 a day with a 15% safety fraction give a reorder point of 72. A stock of 80 needs nothing, and a stock of 50 with a smallest MOQ of 30 orders 30. |
| StatusTracker.WholeDaysBetween | app/api/inventory/check-po-status/route.ts:42 | `differenceInDays`: whole days between two instants, truncated toward zero, in either order. |
| StatusTracker.Evaluate | app/api/inventory/check-po-status/route.ts:34-53 | Delivered stays delivered, with no overdue days and a note citing the actual delivery date as recorded. The reported status is delayed exactly in two cases: the recorded status is delayed, or it is pending or shipped and at least one whole day has passed since the expected time. In the second case the days overdue are that whole-day count, with a "delayed by" note. Otherwise the status is unchanged. A recorded delayed order keeps the "currently delayed" note, with 0 days. A pending or shipped order not yet due keeps the "currently" note of its status. "Due today" is reported exactly when the expected time has passed by less than a day. |
| StatusTracker.ReportFor | app/api/inventory/check-po-status/route.ts:56-66 | Id, product, supplier, quantity and both dates are copied unchanged. Days overdue are present exactly when the reported status is delayed. |
| StatusTracker.ReportIfParsable | app/api/inventory/check-po-status/route.ts:27-32 | An order yields no report exactly when its expected date does not parse. |
| StatusTracker.ReportsFollowOrders | app/api/inventory/check-po-status/route.ts:26-67 | Each report comes from one order with a parsable expected date, in order, and every such order has its report. |
| StatusTracker.StatusReports | app/api/inventory/check-po-status/route.ts:21-69 | The route makes at most one report per purchase order. ReportsFollowOrders gives which order and in what order. |
| StatusTracker.TenDaysLate | app/api/inventory/check-po-status/route.ts:39-45 | A pending order ten days past its expected time is reported delayed by 10 days. |

## Left out

- HTTP handling is not modelled: `NextResponse`, `request.json()`, status codes, the catch-all 500 responses and console logging. The refusals are an `OrderError` value, and each route returns its data directly.
- The human-readable `message`, `reason` and `chosen_supplier_reason` strings are not modelled. Only which case was taken is kept: the `Note` of a status report, and the error reason of an order.
- IEEE floating point is replaced by exact reals, so rounding in the scores, the mean and the ceiling is not modelled. A price of 0, or a lead time of 0 under the speed or balance goal, gives `Infinity` in the source. The model instead requires every scored supplier to have a defined score (`ScoringDefined`, `ScoreDefined`).
- Scoring.CheaperScoresHigher, FasterScoresHigher: stated only for positive prices and lead times, where the divisions are monotone.
- Quantities are integers. Non-numeric or `NaN` JSON values and a missing `product_id` (modelled as the empty string) are not distinguished further.
- Date handling is abstracted. `parseISO`, `isValid`, ISO formatting, local time and daylight-saving effects of `setDate` and `differenceInDays` become integer milliseconds with 86,400,000 per day, and an `Unparseable` case for dates that do not parse.
- The `YYYYMMDD` prefix of generated ids is an opaque `stamp` parameter. The uniqueness lemmas require it to have eight characters.
- The order path reads the clock three times: for the order time (app/api/inventory/create-order/route.ts:109), for the id's date stamp (app/api/data.ts:237) and for `order_date` (app/api/data.ts:238). The model uses one `now` for the order time and `order_date`, and the separate `stamp` parameter for the id.
- `mathjs` is not modelled. Its ceiling and mean are specified directly.
- The module-level state shared across requests, and any concurrency on it, are not modelled. The store is threaded explicitly.
- The trivial accessors `getAllSuppliers`, `getAllPurchaseOrders` and `getAllReturns` (app/api/data.ts:218-220) are not separate members. They are the store's fields.
- The send-supplier-reminder route is not part of this model. It wraps `addSupplierReminder`, which `data.ts` does not define, so its behaviour cannot be stated.

Two behaviours of the status route that are easy to misread, modelled as the code has them:
- A purchase order recorded as delayed is reported delayed with `days_overdue` present and equal to 0. The field appears whenever the reported status is delayed, not only when the overdue count is positive.
- The delivered case cites the actual delivery date as recorded, even when it is null.

=== FILE: entities.dfy ===
/** The records of the inventory system: products, stock, suppliers with
    their per-product offers, purchase orders and return tickets. */
module Entities {
  import opened Wrappers

  /** A timestamp as the routes see it after `parseISO`: milliseconds since
      the epoch, or a text that does not parse to a valid date. */
  datatype Date = At(ms: int) | Unparseable(raw: string)

  const MsPerDay: int := 86_400_000

  datatype Product = Product(
    id: string,
    name: string,
    sku: string,
    description: string,
    unitCost: real,
    retailPrice: real,
    safetyStockFraction: real,
    averageDailySales: real)

  datatype StockRecord = StockRecord(
    productId: string,
    quantityOnHand: int,
    warehouseLocation: string,
    lastUpdated: Date)

  /** What a supplier charges for one product and the least it will sell. */
  datatype Offer = Offer(price: real, moq: int)

  datatype Supplier = Supplier(
    id: string,
    name: string,
    contactPerson: string,
    email: string,
    phone: string,
    leadTimeDays: int,
    onTimeRate: real,
    offers: map<string, Offer>)

  datatype PoStatus = Pending | Shipped | Delivered | Delayed

  datatype PurchaseOrder = PurchaseOrder(
    id: string,
    supplierId: string,
    productId: string,
    quantity: int,
    orderDate: Date,
    expectedDelivery: Date,
    actualDelivery: Option<Date>,
    status: PoStatus)

  /** A purchase order as its creator supplies it: everything but the id and
      the order date, which the store fills in. */
  datatype OrderDraft = OrderDraft(
    supplierId: string,
    productId: string,
    quantity: int,
    expectedDelivery: Date,
    actualDelivery: Option<Date>,
    status: PoStatus)

  datatype ReturnTicket = ReturnTicket(
    id: string,
    productId: string,
    quantityReturned: int,
    reason: string,
    returnDate: Date,
    supplierId: Option<string>)

  /** A return ticket without the id and date the store fills in. */
  datatype ReturnDraft = ReturnDraft(
    productId: string,
    quantityReturned: int,
    reason: string,
    supplierId: Option<string>)
}

=== FILE: ids.dfy ===
/** Identifier generation of the entity store: a decimal counter, left-padded
    with zeros to at least three digits (`String(n).padStart(3, '0')`), behind
    a prefix and a date stamp, as in `PO-20250701-002`. */
module Ids {

  predicate IsDigit(c: char)
  {
    '0' <= c <= '9'
  }

  predicate AllDigits(s: string)
  {
    forall i | 0 <= i < |s| :: IsDigit(s[i])
  }

  function DigitChar(d: nat): (c: char)
    requires d < 10
    ensures IsDigit(c)
  {
    ('0' as int + d) as char
  }

  function DigitValue(c: char): (d: nat)
    requires IsDigit(c)
    ensures d < 10
  {
    c as int - '0' as int
  }

  /** `String(n)` for a non-negative counter: its decimal digits, no leading zero. */
  function Digits(n: nat): (s: string)
    ensures |s| >= 1 && AllDigits(s)
    ensures |s| > 1 ==> s[0] != '0'
  {
    if n < 10 then [DigitChar(n)] else Digits(n / 10) + [DigitChar(n % 10)]
  }

  /** The number a string of decimal digits denotes (leading zeros allowed). */
  function ParseDigits(s: string): nat
    requires AllDigits(s)
  {
    if |s| == 0 then 0 else 10 * ParseDigits(s[..|s| - 1]) + DigitValue(s[|s| - 1])
  }

  lemma {:induction false} ParseDigitsOfDigits(n: nat)
    ensures ParseDigits(Digits(n)) == n
  {
    if n >= 10 {
      var s := Digits(n);
      assert s[..|s| - 1] == Digits(n / 10);
      ParseDigitsOfDigits(n / 10);
    }
  }

  /** Three digits suffice exactly for counters below 1000. */
  lemma {:induction false} DigitsLength(n: nat)
    ensures |Digits(n)| <= 3 <==> n < 1000
  {
    if n >= 10 {
      DigitsLength(n / 10);
      if n >= 100 {
        DigitsLength(n / 100);
        assert |Digits(n / 10)| == |Digits(n / 100)| + 1;
      }
    }
  }

  /** `s.padStart(width, '0')`: zeros in front of `s` up to `width` characters. */
  function PadStart(s: string, width: nat): (r: string)
    ensures |r| == if |s| >= width then |s| else width
    ensures r[|r| - |s|..] == s
    ensures forall i | 0 <= i < |r| - |s| :: r[i] == '0'
  {
    if |s| >= width then s else seq(width - |s|, _ => '0') + s
  }

  /** Leading zeros do not change the number a digit string denotes. */
  lemma {:induction false} ParseIgnoresLeadingZeros(z: string, s: string)
    requires forall i | 0 <= i < |z| :: z[i] == '0'
    requires AllDigits(s)
    ensures AllDigits(z + s)
    ensures ParseDigits(z + s) == ParseDigits(s)
  {
    if |s| == 0 {
      ZerosParseToZero(z);
      assert z + s == z;
    } else {
      var init := s[..|s| - 1];
      assert (z + s)[..|z + s| - 1] == z + init;
      ParseIgnoresLeadingZeros(z, init);
    }
  }

  lemma {:induction false} ZerosParseToZero(z: string)
    requires forall i | 0 <= i < |z| :: z[i] == '0'
    ensures AllDigits(z)
    ensures ParseDigits(z) == 0
  {
    if |z| > 0 {
      ZerosParseToZero(z[..|z| - 1]);
    }
  }

  /** The counter part of a generated identifier. */
  function SequenceSuffix(n: nat): (r: string)
    ensures |r| == if |Digits(n)| >= 3 then |Digits(n)| else 3
    ensures AllDigits(r)
  {
    var r := PadStart(Digits(n), 3);
    assert r == r[..|r| - |Digits(n)|] + Digits(n);
    ParseIgnoresLeadingZeros(r[..|r| - |Digits(n)|], Digits(n));
    r
  }

  /** Padding round trip: the suffix decodes back to the counter. */
  lemma SuffixRoundTrip(n: nat)
    ensures ParseDigits(SequenceSuffix(n)) == n
  {
    var d := Digits(n);
    var r := SequenceSuffix(n);
    assert r == r[..|r| - |d|] + d;
    ParseIgnoresLeadingZeros(r[..|r| - |d|], d);
    ParseDigitsOfDigits(n);
  }

  lemma SuffixInjective(a: nat, b: nat)
    requires SequenceSuffix(a) == SequenceSuffix(b)
    ensures a == b
  {
    SuffixRoundTrip(a);
    SuffixRoundTrip(b);
  }

  /** Length of the `YYYYMMDD` stamp produced from an ISO date. */
  const DateStampLength: nat := 8

  /** `${prefix}${stamp}-${String(n).padStart(3, '0')}` */
  function GeneratedId(prefix: string, stamp: string, n: nat): string
  {
    prefix + stamp + "-" + SequenceSuffix(n)
  }

  /** Recovers the counter from an identifier generated with a `YYYYMMDD`
      stamp; 0, which no generated identifier carries, for anything else. */
  function SequenceNumber(prefix: string, id: string): nat
  {
    var start := |prefix| + DateStampLength + 1;
    if |id| > start && AllDigits(id[start..]) then ParseDigits(id[start..]) else 0
  }

  lemma SequenceNumberOfGenerated(prefix: string, stamp: string, n: nat)
    requires |stamp| == DateStampLength
    ensures SequenceNumber(prefix, GeneratedId(prefix, stamp, n)) == n
  {
    var id := GeneratedId(prefix, stamp, n);
    assert id[|prefix| + DateStampLength + 1..] == SequenceSuffix(n);
    SuffixRoundTrip(n);
  }

  /** Different counters give different identifiers, whatever the stamps. */
  lemma GeneratedIdsDistinct(prefix: string, stamp1: string, stamp2: string, a: nat, b: nat)
    requires |stamp1| == DateStampLength && |stamp2| == DateStampLength
    requires a != b
    ensures GeneratedId(prefix, stamp1, a) != GeneratedId(prefix, stamp2, b)
  {
    SequenceNumberOfGenerated(prefix, stamp1, a);
    SequenceNumberOfGenerated(prefix, stamp2, b);
  }
}

=== FILE: numeric.dfy ===
/** The arithmetic the routes borrow from `Math`/`mathjs`: ceiling of a real,
    the mean and the minimum of a list of integers. */
module Numeric {

  /** `Math.ceil` / `math.ceil` on an exact real: the least integer not below `x`. */
  function Ceil(x: real): (c: int)
    ensures c as real - 1.0 < x <= c as real
  {
    -((-x).Floor)
  }

  /** Ceil is the least integer above x, so any integer above x is above it. */
  lemma CeilLeast(x: real, k: int)
    requires x <= k as real
    ensures Ceil(x) <= k
  {
  }

  lemma CeilMonotone(x: real, y: real)
    requires x <= y
    ensures Ceil(x) <= Ceil(y)
  {
  }

  function Sum(xs: seq<int>): int
  {
    if |xs| == 0 then 0 else Sum(xs[..|xs| - 1]) + xs[|xs| - 1]
  }

  /** `math.mean` of a non-empty list of integers, computed exactly. */
  function Mean(xs: seq<int>): (m: real)
    requires |xs| > 0
    ensures m * |xs| as real == Sum(xs) as real
  {
    Sum(xs) as real / |xs| as real
  }

  /** `Math.min(...xs)` for a non-empty list. */
  function Min(xs: seq<int>): (m: int)
    requires |xs| > 0
    ensures forall i | 0 <= i < |xs| :: m <= xs[i]
    ensures exists i | 0 <= i < |xs| :: m == xs[i]
  {
    if |xs| == 1 then xs[0]
    else
      var m := Min(xs[..|xs| - 1]);
      assert forall i | 0 <= i < |xs| - 1 :: xs[..|xs| - 1][i] == xs[i];
      if xs[|xs| - 1] < m then xs[|xs| - 1] else m
  }

  /** Every element lies between lo and hi. */
  ghost predicate Within(xs: seq<int>, lo: int, hi: int)
  {
    forall i | 0 <= i < |xs| :: lo <= xs[i] <= hi
  }

  /** A list whose elements lie in [lo, hi] sums to between n*lo and n*hi. */
  lemma {:induction false} SumWithin(xs: seq<int>, lo: int, hi: int)
    requires Within(xs, lo, hi)
    ensures |xs| * lo <= Sum(xs) <= |xs| * hi
  {
    if |xs| > 0 {
      var init := xs[..|xs| - 1];
      assert Within(init, lo, hi) by {
        forall i | 0 <= i < |init| ensures lo <= init[i] <= hi {
          assert init[i] == xs[i];
        }
      }
      SumWithin(init, lo, hi);
      assert |xs| * lo == |init| * lo + lo;
      assert |xs| * hi == |init| * hi + hi;
    }
  }

  /** Dividing both sides of a * n <= s by a positive n. */
  lemma DivideBounds(a: real, s: real, b: real, n: real)
    requires n > 0.0 && a * n <= s <= b * n
    ensures a <= s / n <= b
  {
    var q := s / n;
    assert s == q * n;
  }

  lemma MulAsReal(a: int, b: int)
    ensures (a * b) as real == a as real * b as real
  {
  }

  /** The ceiling of the mean of integers in [lo, hi] is itself in [lo, hi]. */
  lemma CeilMeanWithin(xs: seq<int>, lo: int, hi: int)
    requires |xs| > 0 && Within(xs, lo, hi)
    ensures lo <= Ceil(Mean(xs)) <= hi
  {
    var n := |xs|;
    var s := Sum(xs);
    SumWithin(xs, lo, hi);
    MulAsReal(n, lo);
    MulAsReal(n, hi);
    assert lo as real * n as real <= s as real <= hi as real * n as real;
    DivideBounds(lo as real, s as real, hi as real, n as real);
    assert Mean(xs) == s as real / n as real;
    CeilLeast(Mean(xs), hi);
  }
}

=== FILE: orders.dfy ===
/** The order route: request validation, the two not-found cases before
    scoring, supplier selection, and the new pending purchase order whose
    expected delivery is the order time plus the chosen supplier's lead time. */
module Orders {
  import opened Wrappers
  import opened Entities
  import opened EntityStore
  import opened Scoring

  datatype OrderRequest = OrderRequest(productId: string, quantity: int, goal: Option<string>)

  /** Which lookup failed; the route answers all three with status 404. */
  datatype NotFoundReason = UnknownProduct | NoSupplierOffersProduct | NoSupplierMeetsMoq

  datatype OrderError = InvalidArgument | NotFound(reason: NotFoundReason)

  /** A placed order with the supplier chosen for it, the winning score and
      the goal it was scored under. */
  datatype Placement = Placement(order: PurchaseOrder, supplier: Supplier, score: real, goal: Goal)

  /** The request has a product id and a positive quantity. */
  predicate ValidRequest(req: OrderRequest)
  {
    req.productId != "" && req.quantity > 0
  }

  /** `setDate(getDate() + leadTime)`: whole days added to the order time. */
  function ExpectedDelivery(orderTime: int, leadTimeDays: int): (d: Date)
    ensures d.At? && d.ms - orderTime == leadTimeDays * MsPerDay
  {
    At(orderTime + leadTimeDays * MsPerDay)
  }

  /** The order route. `now` is the clock reading and `stamp` the `YYYYMMDD`
      text of it; the store comes back changed only when an order is placed. */
  method PlaceOrder(st: Store, req: OrderRequest, now: int, stamp: string)
    returns (r: Result<Placement, OrderError>, st': Store)
    requires ValidRequest(req) && GetProduct(st.products, req.productId).Some? ==>
      ScoringDefined(SuppliersOffering(st.suppliers, req.productId), req.productId, req.quantity, ParseGoal(req.goal))
    ensures r.Failure? ==> st' == st
    ensures r == Failure(InvalidArgument) <==> !ValidRequest(req)
    ensures r == Failure(NotFound(UnknownProduct)) <==>
      ValidRequest(req) && GetProduct(st.products, req.productId).None?
    ensures r == Failure(NotFound(NoSupplierOffersProduct)) <==>
      && ValidRequest(req) && GetProduct(st.products, req.productId).Some?
      && forall i | 0 <= i < |st.suppliers| :: req.productId !in st.suppliers[i].offers
    ensures r == Failure(NotFound(NoSupplierMeetsMoq)) <==>
      && ValidRequest(req) && GetProduct(st.products, req.productId).Some?
      && |SuppliersOffering(st.suppliers, req.productId)| > 0
      && NoneAboveStart(SuppliersOffering(st.suppliers, req.productId), req.productId, req.quantity, ParseGoal(req.goal))
    ensures r.Success? ==>
      var p := r.value;
      var cands := SuppliersOffering(st.suppliers, req.productId);
      && p.goal == ParseGoal(req.goal)
      && (exists i | 0 <= i < |cands| ::
            && IsBest(cands, req.productId, req.quantity, p.goal, i)
            && p.supplier == cands[i]
            && p.score == ScoreOf(cands[i], req.productId, p.goal))
      && p.supplier in st.suppliers
      && req.productId in p.supplier.offers
      && p.supplier.offers[req.productId].moq <= req.quantity
      && p.order.supplierId == p.supplier.id
      && p.order.productId == req.productId
      && p.order.quantity == req.quantity
      && p.order.status == Pending
      && p.order.actualDelivery.None?
      && p.order.expectedDelivery == ExpectedDelivery(now, p.supplier.leadTimeDays)
      && AddPurchaseOrder(st, DraftOf(p.order), stamp, now) == Appended(p.order, st')
    ensures st'.stock == st.stock
  {
    st' := st;
    if !ValidRequest(req) {
      return Failure(InvalidArgument), st';
    }
    if GetProduct(st.products, req.productId).None? {
      return Failure(NotFound(UnknownProduct)), st';
    }
    var cands := SuppliersOffering(st.suppliers, req.productId);
    if |cands| == 0 {
      return Failure(NotFound(NoSupplierOffersProduct)), st';
    }
    assert cands[0] in st.suppliers && req.productId in cands[0].offers;
    var goal := ParseGoal(req.goal);
    var best, highest := SelectSupplier(cands, req.productId, req.quantity, goal);
    if best.None? {
      return Failure(NotFound(NoSupplierMeetsMoq)), st';
    }
    var chosen := cands[best.value];
    var draft := OrderDraft(chosen.id, req.productId, req.quantity,
      ExpectedDelivery(now, chosen.leadTimeDays), None, Pending);
    var added := AddPurchaseOrder(st, draft, stamp, now);
    st' := added.store;
    r := Success(Placement(added.record, chosen, highest, goal));
  }

  /** The balance scores of the two seeded suppliers of P001 that accept an
      order of 50: S001 about 491.37, S002 about 460.26. */
  lemma SeededBalanceScores()
    ensures Score(Balance, 480.0, 7, 0.95) > 491.36
    ensures Score(Balance, 520.0, 3, 0.85) < 460.27
  {
  }

  lemma SeededOfferingP001()
    ensures SuppliersOffering(SeededSuppliers(), "P001") == SeededSuppliers()
  {
    var sups := SeededSuppliers();
    var os := OfferedBy(sups, "P001");
    assert |os| == 3 && os[0] == Some(sups[0]) && os[1] == Some(sups[1]) && os[2] == Some(sups[2]);
    assert Present(os[..1]) == [sups[0]] by {
      assert os[..1][..0] == [];
    }
    assert Present(os[..2]) == [sups[0], sups[1]] by {
      assert os[..2][..1] == os[..1];
    }
    assert Present(os) == sups;
  }

  lemma SeededBestP001()
    ensures ScoringDefined(SeededSuppliers(), "P001", 50, Balance)
    ensures IsBest(SeededSuppliers(), "P001", 50, Balance, 0)
    ensures Qualifies(SeededSuppliers()[1], "P001", 50)
    ensures !Qualifies(SeededSuppliers()[2], "P001", 50)
  {
    var sups := SeededSuppliers();
    SeededBalanceScores();
    assert !Qualifies(sups[2], "P001", 50);
    assert Qualifies(sups[1], "P001", 50);
  }

  lemma ErrorCases(e: OrderError)
    ensures e == InvalidArgument || e == NotFound(UnknownProduct)
      || e == NotFound(NoSupplierOffersProduct) || e == NotFound(NoSupplierMeetsMoq)
  {
    match e
    case InvalidArgument =>
    case NotFound(reason) =>
      match reason
      case UnknownProduct =>
      case NoSupplierOffersProduct =>
      case NoSupplierMeetsMoq =>
  }

  /** With the seeded store, 50 units of P001 under the default goal are
      ordered from S001: S002 scores lower and S003's MOQ of 100 excludes it. */
  method SeededOrderExample(loadTime: int, now: int, stamp: string) returns (chosen: string)
    ensures chosen == "S001"
  {
    var st := InitialStore(loadTime);
    var sups := SeededSuppliers();
    SeededOfferingP001();
    SeededBestP001();
    assert GetProduct(st.products, "P001").Some? by {
      assert st.products[0].id == "P001";
    }
    var req := OrderRequest("P001", 50, None);
    assert ValidRequest(req) && ParseGoal(req.goal) == Balance;
    assert "P001" in st.suppliers[0].offers;
    assert !NoneAboveStart(sups, "P001", 50, Balance) by {
      assert Qualifies(sups[0], "P001", 50);
    }
    var r, st' := PlaceOrder(st, req, now, stamp);
    assert r != Failure(InvalidArgument);
    assert r != Failure(NotFound(UnknownProduct));
    assert r != Failure(NotFound(NoSupplierOffersProduct));
    assert r != Failure(NotFound(NoSupplierMeetsMoq));
    if r.Failure? {
      ErrorCases(r.error);
    }
    assert r.Success?;
    ghost var i :| 0 <= i < |sups| && IsBest(sups, "P001", 50, Balance, i) && r.value.supplier == sups[i];
    BestIsUnique(sups, "P001", 50, Balance, i, 0);
    chosen := r.value.supplier.id;
  }
}

=== FILE: postatus.dfy ===
/** The purchase-order status route: for every purchase order whose expected
    delivery date parses, a report with the status derived from the recorded
    status, the expected date and the current time. Nothing is written back. */
module StatusTracker {
  import opened Wrappers
  import opened Entities

  /** `differenceInDays(later, earlier)`: the number of whole days between
      two instants, truncated toward zero. */
  function WholeDaysBetween(later: int, earlier: int): (d: int)
    ensures later >= earlier ==> 0 <= d && d * MsPerDay <= later - earlier < (d + 1) * MsPerDay
    ensures later < earlier ==> d <= 0 && (-d) * MsPerDay <= earlier - later < (-d + 1) * MsPerDay
  {
    var diff := later - earlier;
    if diff >= 0 then diff / MsPerDay else -((-diff) / MsPerDay)
  }

  /** Which explanation the route attaches to a report. */
  datatype Note =
    | CurrentlyIs(status: PoStatus)
    | DelayedBy(days: int)
    | DueToday
    | DeliveredOn(actual: Option<Date>)

  datatype Evaluation = Evaluation(status: PoStatus, daysOverdue: int, note: Note)

  /** The reported status of one order: a pending or shipped order at least
      one whole day past its expected time is delayed by that many days; a
      delivered one stays delivered; everything else keeps its recorded status. */
  function Evaluate(recorded: PoStatus, actual: Option<Date>, expectedMs: int, now: int): (e: Evaluation)
    ensures e.status == Delivered <==> recorded == Delivered
    ensures e.status == Delayed <==>
      recorded == Delayed || ((recorded == Pending || recorded == Shipped) && now - expectedMs >= MsPerDay)
    ensures e.status == recorded || e.status == Delayed
    ensures e.status == Delayed && recorded != Delayed ==>
      e.daysOverdue >= 1 && e.daysOverdue * MsPerDay <= now - expectedMs < (e.daysOverdue + 1) * MsPerDay
      && e.note == DelayedBy(e.daysOverdue)
    ensures recorded == Delayed || recorded == Delivered ==> e.daysOverdue == 0
    ensures recorded == Delivered ==> e.note == DeliveredOn(actual)
    ensures recorded == Delayed ==> e.note == CurrentlyIs(Delayed)
    ensures (recorded == Pending || recorded == Shipped) && now <= expectedMs ==> e.note == CurrentlyIs(recorded)
    ensures e.status != Delayed && e.note != DeliveredOn(actual) ==>
      (e.note == DueToday <==> (expectedMs < now && now - expectedMs < MsPerDay))
  {
    match recorded
    case Pending | Shipped =>
      if expectedMs < now then
        var days := WholeDaysBetween(now, expectedMs);
        if days > 0 then Evaluation(Delayed, days, DelayedBy(days))
        else Evaluation(recorded, days, DueToday)
      else Evaluation(recorded, 0, CurrentlyIs(recorded))
    case Delivered => Evaluation(Delivered, 0, DeliveredOn(actual))
    case Delayed => Evaluation(Delayed, 0, CurrentlyIs(Delayed))
  }

  datatype Report = Report(
    poId: string,
    productId: string,
    supplierId: string,
    quantity: int,
    orderDate: Date,
    expectedDelivery: Date,
    status: PoStatus,
    daysOverdue: Option<int>,
    note: Note)

  /** The report of one order with a parsable expected date: its identifying
      fields copied, the evaluated status, and days overdue exactly when the
      reported status is delayed. */
  function ReportFor(po: PurchaseOrder, now: int): (r: Report)
    requires po.expectedDelivery.At?
    ensures r.poId == po.id && r.productId == po.productId && r.supplierId == po.supplierId
    ensures r.quantity == po.quantity && r.orderDate == po.orderDate && r.expectedDelivery == po.expectedDelivery
    ensures r.daysOverdue.Some? <==> r.status == Delayed
    ensures var e := Evaluate(po.status, po.actualDelivery, po.expectedDelivery.ms, now);
      r.status == e.status && r.note == e.note && (r.daysOverdue.Some? ==> r.daysOverdue.value == e.daysOverdue)
  {
    var e := Evaluate(po.status, po.actualDelivery, po.expectedDelivery.ms, now);
    Report(po.id, po.productId, po.supplierId, po.quantity, po.orderDate, po.expectedDelivery,
      e.status, if e.status == Delayed then Some(e.daysOverdue) else None, e.note)
  }

  /** The loop body for one order: no report when the expected date does not parse. */
  function ReportIfParsable(po: PurchaseOrder, now: int): (r: Option<Report>)
    ensures r.None? <==> po.expectedDelivery.Unparseable?
  {
    if po.expectedDelivery.At? then Some(ReportFor(po, now)) else None
  }

  function PerOrder(pos: seq<PurchaseOrder>, now: int): (os: seq<Option<Report>>)
    ensures |os| == |pos|
    ensures forall i | 0 <= i < |pos| :: os[i] == ReportIfParsable(pos[i], now)
  {
    seq(|pos|, i requires 0 <= i < |pos| => ReportIfParsable(pos[i], now))
  }

  /** The route: the reports of all orders with a parsable expected date, in order. */
  function StatusReports(pos: seq<PurchaseOrder>, now: int): (r: seq<Report>)
    ensures |r| <= |pos|
  {
    Present(PerOrder(pos, now))
  }

  /** Each report belongs to one order with a parsable expected date, in
      order, and every such order has its report. */
  lemma ReportsFollowOrders(pos: seq<PurchaseOrder>, now: int)
    ensures var r := StatusReports(pos, now);
      var idx := PresentOrigins(PerOrder(pos, now));
      && |idx| == |r|
      && (forall k | 0 <= k < |r| ::
            idx[k] < |pos| && pos[idx[k]].expectedDelivery.At? && r[k] == ReportFor(pos[idx[k]], now))
      && (forall k, m | 0 <= k < m < |r| :: idx[k] < idx[m])
      && (forall i | 0 <= i < |pos| && pos[i].expectedDelivery.At? :: exists k | 0 <= k < |r| :: idx[k] == i)
  {
    var os := PerOrder(pos, now);
    var idx := PresentOrigins(os);
    forall i | 0 <= i < |pos| && pos[i].expectedDelivery.At?
      ensures exists k | 0 <= k < |idx| :: idx[k] == i
    {
      PresentOriginsComplete(os, i);
    }
  }

  /** An order pending ten days past its expected time is reported delayed by ten days. */
  lemma TenDaysLate(po: PurchaseOrder, now: int)
    requires po.status == Pending && po.expectedDelivery == At(now - 10 * MsPerDay)
    ensures ReportFor(po, now).status == Delayed
    ensures ReportFor(po, now).daysOverdue == Some(10)
  {
  }
}

=== FILE: reorder.dfy ===
/** The reorder-suggestion route: for every product with a stock record, the
    average supplier lead time, the reorder point it implies, and, when stock
    is below that point, a suggested quantity that covers the shortfall and
    reaches the smallest MOQ on offer. */
module Reorder {
  import opened Wrappers
  import opened Entities
  import opened EntityStore
  import opened Numeric

  /** Lead time assumed when no supplier offers the product. */
  const DefaultLeadTimeDays: int := 7

  function LeadTimes(suppliers: seq<Supplier>): (ts: seq<int>)
    ensures |ts| == |suppliers|
    ensures forall i | 0 <= i < |suppliers| :: ts[i] == suppliers[i].leadTimeDays
  {
    seq(|suppliers|, i requires 0 <= i < |suppliers| => suppliers[i].leadTimeDays)
  }

  /** The reported `avg_lead_time_days`: the ceiling of the mean lead time of
      the offering suppliers, or the default when there are none. */
  function AverageLeadTime(offering: seq<Supplier>): (d: int)
    ensures |offering| == 0 ==> d == DefaultLeadTimeDays
    ensures |offering| > 0 ==> d as real - 1.0 < Mean(LeadTimes(offering)) <= d as real
  {
    if |offering| == 0 then DefaultLeadTimeDays else Ceil(Mean(LeadTimes(offering)))
  }

  /** The average lies between the shortest and the longest lead time on offer. */
  lemma AverageLeadTimeWithin(offering: seq<Supplier>, lo: int, hi: int)
    requires |offering| > 0
    requires forall i | 0 <= i < |offering| :: lo <= offering[i].leadTimeDays <= hi
    ensures lo <= AverageLeadTime(offering) <= hi
  {
    CeilMeanWithin(LeadTimes(offering), lo, hi);
  }

  /** The lead time the formula uses: never below one day. */
  function EffectiveLeadTime(average: int): (e: int)
    ensures e >= 1 && e >= average
    ensures average >= 1 ==> e == average
    ensures average < 1 ==> e == 1
  {
    if average > 1 then average else 1
  }

  /** Demand over the lead time plus the safety buffer, rounded up. */
  function ReorderPoint(sales: real, leadTime: int, safety: real): (rp: int)
    ensures rp as real - 1.0 < sales * leadTime as real + sales * safety <= rp as real
  {
    Ceil(sales * leadTime as real + sales * safety)
  }

  lemma MulMonotone(a1: real, a2: real, b1: real, b2: real)
    requires 0.0 <= a1 <= a2 && 0.0 <= b1 <= b2
    ensures a1 * b1 <= a2 * b2
  {
    assert a1 * b1 <= a2 * b1;
    assert a2 * b1 <= a2 * b2;
  }

  /** With non-negative inputs the reorder point never decreases when sales,
      lead time or safety fraction grow. */
  lemma ReorderPointMonotone(s1: real, s2: real, l1: int, l2: int, f1: real, f2: real)
    requires 0.0 <= s1 <= s2 && 0 <= l1 <= l2 && 0.0 <= f1 <= f2
    ensures ReorderPoint(s1, l1, f1) <= ReorderPoint(s2, l2, f2)
  {
    MulMonotone(s1, s2, l1 as real, l2 as real);
    MulMonotone(s1, s2, f1, f2);
    CeilMonotone(s1 * l1 as real + s1 * f1, s2 * l2 as real + s2 * f2);
  }

  /** `Math.min` over the offering suppliers' MOQs for the product, or 1. */
  function MinMoq(offering: seq<Supplier>, productId: string): (m: int)
    requires forall i | 0 <= i < |offering| :: productId in offering[i].offers
    ensures |offering| == 0 ==> m == 1
    ensures forall i | 0 <= i < |offering| :: m <= offering[i].offers[productId].moq
    ensures |offering| > 0 ==> exists i | 0 <= i < |offering| :: m == offering[i].offers[productId].moq
  {
    if |offering| == 0 then 1
    else
      var moqs := seq(|offering|, i requires 0 <= i < |offering| => offering[i].offers[productId].moq);
      assert forall i | 0 <= i < |offering| :: moqs[i] == offering[i].offers[productId].moq;
      Min(moqs)
  }

  /** The shortfall, raised to 1 when not positive, then raised to the MOQ:
      the least quantity that is at least 1, at least the MOQ and brings the
      stock up to the reorder point. */
  function SuggestedQuantity(reorderPoint: int, onHand: int, minMoq: int): (q: int)
    ensures q >= 1 && q >= minMoq && onHand + q >= reorderPoint
    ensures q == 1 || q == minMoq || q == reorderPoint - onHand
  {
    var shortfall := reorderPoint - onHand;
    var q := if shortfall <= 0 then 1 else shortfall;
    if q < minMoq then minMoq else q
  }

  datatype Suggestion = Suggestion(
    productId: string,
    productName: string,
    onHand: int,
    averageDailySales: real,
    avgLeadTimeDays: int,
    safetyStockFraction: real,
    reorderPoint: int,
    suggestedQuantity: int)

  /** The reorder point of a product given the suppliers that offer it. */
  function ProductReorderPoint(p: Product, offering: seq<Supplier>): int
  {
    ReorderPoint(p.averageDailySales, EffectiveLeadTime(AverageLeadTime(offering)), p.safetyStockFraction)
  }

  /** The decision for a product with `onHand` units in stock, given the
      average lead time it reports, its reorder point and the smallest MOQ
      on offer: a suggestion exactly when stock is below the reorder point. */
  function Decide(p: Product, onHand: int, average: int, reorderPoint: int, minMoq: int): (r: Option<Suggestion>)
    ensures r.None? <==> onHand >= reorderPoint
    ensures r.Some? ==>
      && r.value.productId == p.id && r.value.productName == p.name
      && r.value.onHand == onHand && r.value.averageDailySales == p.averageDailySales
      && r.value.avgLeadTimeDays == average
      && r.value.safetyStockFraction == p.safetyStockFraction
      && r.value.reorderPoint == reorderPoint
      && r.value.suggestedQuantity >= 1
      && r.value.onHand + r.value.suggestedQuantity >= reorderPoint
      && r.value.suggestedQuantity >= minMoq
      && (r.value.suggestedQuantity == 1 || r.value.suggestedQuantity == minMoq
          || r.value.suggestedQuantity == reorderPoint - onHand)
  {
    if onHand < reorderPoint then
      Some(Suggestion(p.id, p.name, onHand, p.averageDailySales, average,
        p.safetyStockFraction, reorderPoint, SuggestedQuantity(reorderPoint, onHand, minMoq)))
    else None
  }

  /** The loop body for one product: nothing without a stock record; with
      one, the decision on the first stock record's quantity, the average
      lead time of the offering suppliers (reported unclamped), the reorder
      point from the clamped lead time, and their smallest MOQ. */
  function SuggestFor(p: Product, stock: seq<StockRecord>, suppliers: seq<Supplier>): (r: Option<Suggestion>)
    ensures GetStock(stock, p.id).None? ==> r.None?
    ensures GetStock(stock, p.id).Some? ==>
      var offering := SuppliersOffering(suppliers, p.id);
      r == Decide(p, GetStock(stock, p.id).value.quantityOnHand, AverageLeadTime(offering),
        ProductReorderPoint(p, offering), MinMoq(offering, p.id))
  {
    match GetStock(stock, p.id)
    case None => None
    case Some(rec) =>
      var offering := SuppliersOffering(suppliers, p.id);
      var average := AverageLeadTime(offering);
      var rp := ReorderPoint(p.averageDailySales, EffectiveLeadTime(average), p.safetyStockFraction);
      Decide(p, rec.quantityOnHand, average, rp, MinMoq(offering, p.id))
  }

  /** The loop body applied to every product, in product order. */
  function PerProduct(products: seq<Product>, stock: seq<StockRecord>, suppliers: seq<Supplier>): (os: seq<Option<Suggestion>>)
    ensures |os| == |products|
    ensures forall i | 0 <= i < |products| :: os[i] == SuggestFor(products[i], stock, suppliers)
  {
    seq(|products|, i requires 0 <= i < |products| => SuggestFor(products[i], stock, suppliers))
  }

  /** The route: the suggestions of all products, in product order. */
  function SuggestReorders(products: seq<Product>, stock: seq<StockRecord>, suppliers: seq<Supplier>): (r: seq<Suggestion>)
    ensures |r| <= |products|
  {
    Present(PerProduct(products, stock, suppliers))
  }

  /** Every suggestion was made for one product position, the positions
      increase, and every product whose loop body suggests something is
      represented: exactly one suggestion per product, in product order. */
  lemma SuggestionsFollowProducts(products: seq<Product>, stock: seq<StockRecord>, suppliers: seq<Supplier>)
    ensures var r := SuggestReorders(products, stock, suppliers);
      var idx := PresentOrigins(PerProduct(products, stock, suppliers));
      && |idx| == |r|
      && (forall k | 0 <= k < |r| :: idx[k] < |products| && SuggestFor(products[idx[k]], stock, suppliers) == Some(r[k]))
      && (forall k, m | 0 <= k < m < |r| :: idx[k] < idx[m])
      && (forall i | 0 <= i < |products| && SuggestFor(products[i], stock, suppliers).Some? ::
            exists k | 0 <= k < |r| :: idx[k] == i)
  {
    var os := PerProduct(products, stock, suppliers);
    var idx := PresentOrigins(os);
    forall i | 0 <= i < |products| && SuggestFor(products[i], stock, suppliers).Some?
      ensures exists k | 0 <= k < |idx| :: idx[k] == i
    {
      PresentOriginsComplete(os, i);
    }
  }

  /** A product without a stock record is never suggested. */
  lemma NoStockNoSuggestion(products: seq<Product>, stock: seq<StockRecord>, suppliers: seq<Supplier>, k: nat)
    requires k < |SuggestReorders(products, stock, suppliers)|
    ensures GetStock(stock, SuggestReorders(products, stock, suppliers)[k].productId).Some?
  {
    SuggestionsFollowProducts(products, stock, suppliers);
  }

  /** The worked example: lead times 7, 3 and 10 average to 7, sales of 10 a
      day with a 15% safety fraction give a reorder point of 72, stock of 80
      needs nothing, and stock of 50 with a smallest MOQ of 30 orders 30. */
  lemma WorkedExample()
    ensures Ceil(Mean([7, 3, 10])) == 7
    ensures ReorderPoint(10.0, 7, 0.15) == 72
    ensures !(80 < ReorderPoint(10.0, 7, 0.15))
    ensures SuggestedQuantity(72, 50, 30) == 30
  {
    assert Sum([7, 3, 10]) == 20 by {
      assert [7, 3, 10][..2] == [7, 3];
      assert [7, 3][..1] == [7];
      assert [7][..0] == [];
    }
  }
}

=== FILE: scoring.dfy ===
/** Supplier selection of the order route: the optimisation goal, the four
    score formulas, the MOQ filter, and the strict running maximum that starts
    at -1 and keeps the first of equally scored suppliers. Scores are exact
    reals. */
module Scoring {
  import opened Wrappers
  import opened Entities

  datatype Goal = Cost | Speed | Reliability | Balance

  /** The `optimization_goal` field: absent means balance, and so does any
      text other than the three named goals (the `default` of the switch). */
  function ParseGoal(g: Option<string>): (goal: Goal)
    ensures goal == Cost <==> g == Some("cost")
    ensures goal == Speed <==> g == Some("speed")
    ensures goal == Reliability <==> g == Some("reliability")
    ensures g.None? ==> goal == Balance
  {
    if g == Some("cost") then Cost
    else if g == Some("speed") then Speed
    else if g == Some("reliability") then Reliability
    else Balance
  }

  /** The goals whose formula divides by the lead time. */
  predicate DividesByLeadTime(goal: Goal)
  {
    goal == Speed || goal == Balance
  }

  /** The formula has a real value: no division by a zero price or lead time. */
  predicate ScoreDefined(goal: Goal, price: real, leadTime: int)
  {
    price != 0.0 && (DividesByLeadTime(goal) ==> leadTime != 0)
  }

  /** The score of one offer under a goal; higher is better. The contract
      gives each formula with its denominators cleared, which fixes the score
      because the price (and, where divided by, the lead time) is non-zero. */
  function Score(goal: Goal, price: real, leadTime: int, reliability: real): (s: real)
    requires ScoreDefined(goal, price, leadTime)
    ensures goal == Cost ==>
      s * price * 10.0 == 10000.0 + reliability * 100.0 * price + (100.0 - leadTime as real) * price
    ensures goal == Speed ==>
      s * price * leadTime as real == 1000.0 * price + reliability * 10.0 * price * leadTime as real + 10.0 * leadTime as real
    ensures goal == Reliability ==>
      s * price * 10.0 == reliability * 10000.0 * price + 100.0 + (100.0 - leadTime as real) * price
    ensures goal == Balance ==>
      s * price * leadTime as real == reliability * 500.0 * price * leadTime as real + 1000.0 * leadTime as real + 100.0 * price
  {
    var lead := leadTime as real;
    match goal
    case Cost => 1000.0 / price + reliability * 10.0 + (100.0 - lead) / 10.0
    case Speed => 1000.0 / lead + reliability * 10.0 + (1000.0 / price) / 100.0
    case Reliability => reliability * 1000.0 + (1000.0 / price) / 100.0 + (100.0 - lead) / 10.0
    case Balance => reliability * 500.0 + 1000.0 / price + 100.0 / lead
  }

  lemma InverseAntitone(c: real, x: real, y: real)
    requires c > 0.0 && 0.0 < x < y
    ensures c / x > c / y
  {
    assert c / x * x == c == c / y * y;
    assert c / y * x < c / y * y;
  }

  /** Under every goal a cheaper offer scores strictly higher, all else equal. */
  lemma CheaperScoresHigher(goal: Goal, p1: real, p2: real, leadTime: int, reliability: real)
    requires 0.0 < p1 < p2
    requires DividesByLeadTime(goal) ==> leadTime != 0
    ensures Score(goal, p1, leadTime, reliability) > Score(goal, p2, leadTime, reliability)
  {
    InverseAntitone(1000.0, p1, p2);
  }

  /** Under every goal a shorter positive lead time scores strictly higher. */
  lemma FasterScoresHigher(goal: Goal, price: real, l1: int, l2: int, reliability: real)
    requires price != 0.0
    requires 0 < l1 < l2
    ensures Score(goal, price, l1, reliability) > Score(goal, price, l2, reliability)
  {
    InverseAntitone(1000.0, l1 as real, l2 as real);
    InverseAntitone(100.0, l1 as real, l2 as real);
  }

  /** Under every goal a more reliable supplier scores strictly higher. */
  lemma ReliableScoresHigher(goal: Goal, price: real, leadTime: int, r1: real, r2: real)
    requires ScoreDefined(goal, price, leadTime)
    requires r1 < r2
    ensures Score(goal, price, leadTime, r1) < Score(goal, price, leadTime, r2)
  {
  }

  /** A supplier the loop scores: it offers the product and the requested
      quantity reaches its minimum order quantity. */
  ghost predicate Qualifies(s: Supplier, productId: string, quantity: int)
  {
    productId in s.offers && quantity >= s.offers[productId].moq
  }

  /** Every supplier the loop scores has a defined score. */
  ghost predicate ScoringDefined(cands: seq<Supplier>, productId: string, quantity: int, goal: Goal)
  {
    forall i | 0 <= i < |cands| && Qualifies(cands[i], productId, quantity) ::
      ScoreDefined(goal, cands[i].offers[productId].price, cands[i].leadTimeDays)
  }

  function ScoreOf(s: Supplier, productId: string, goal: Goal): real
    requires productId in s.offers
    requires ScoreDefined(goal, s.offers[productId].price, s.leadTimeDays)
  {
    Score(goal, s.offers[productId].price, s.leadTimeDays, s.onTimeRate)
  }

  /** Candidate `i` is the one to choose: it qualifies, beats the initial -1,
      scores at least as high as every qualifying candidate and strictly higher
      than every qualifying candidate before it. */
  ghost predicate IsBest(cands: seq<Supplier>, productId: string, quantity: int, goal: Goal, i: int)
    requires ScoringDefined(cands, productId, quantity, goal)
  {
    && 0 <= i < |cands|
    && Qualifies(cands[i], productId, quantity)
    && ScoreOf(cands[i], productId, goal) > -1.0
    && (forall j | 0 <= j < |cands| && Qualifies(cands[j], productId, quantity) ::
          ScoreOf(cands[j], productId, goal) <= ScoreOf(cands[i], productId, goal))
    && (forall j | 0 <= j < i && Qualifies(cands[j], productId, quantity) ::
          ScoreOf(cands[j], productId, goal) < ScoreOf(cands[i], productId, goal))
  }

  /** No qualifying candidate scores above the initial maximum of -1. */
  ghost predicate NoneAboveStart(cands: seq<Supplier>, productId: string, quantity: int, goal: Goal)
    requires ScoringDefined(cands, productId, quantity, goal)
  {
    forall j | 0 <= j < |cands| && Qualifies(cands[j], productId, quantity) ::
      ScoreOf(cands[j], productId, goal) <= -1.0
  }

  /** At most one candidate is the one to choose. */
  lemma BestIsUnique(cands: seq<Supplier>, productId: string, quantity: int, goal: Goal, i: int, k: int)
    requires ScoringDefined(cands, productId, quantity, goal)
    requires IsBest(cands, productId, quantity, goal, i) && IsBest(cands, productId, quantity, goal, k)
    ensures i == k
  {
  }

  /** The selection loop of the order route: skips candidates that do not
      offer the product or whose MOQ exceeds the quantity, and keeps the
      first candidate whose score beats every score seen so far, starting
      from -1. Returns the chosen position and the highest score. */
  method SelectSupplier(cands: seq<Supplier>, productId: string, quantity: int, goal: Goal)
    returns (best: Option<nat>, highest: real)
    requires ScoringDefined(cands, productId, quantity, goal)
    ensures best.Some? ==> IsBest(cands, productId, quantity, goal, best.value)
    ensures best.Some? ==> highest == ScoreOf(cands[best.value], productId, goal)
    ensures best.None? <==> NoneAboveStart(cands, productId, quantity, goal)
    ensures best.None? ==> highest == -1.0
  {
    best := None;
    highest := -1.0;
    var k := 0;
    while k < |cands|
      invariant 0 <= k <= |cands|
      invariant best.None? ==> highest == -1.0
      invariant best.Some? ==>
        && best.value < k
        && Qualifies(cands[best.value], productId, quantity)
        && highest == ScoreOf(cands[best.value], productId, goal)
        && highest > -1.0
      invariant forall j | 0 <= j < k && Qualifies(cands[j], productId, quantity) ::
        ScoreOf(cands[j], productId, goal) <= highest
      invariant best.Some? ==> forall j | 0 <= j < best.value && Qualifies(cands[j], productId, quantity) ::
        ScoreOf(cands[j], productId, goal) < highest
    {
      var s := cands[k];
      if productId in s.offers {
        var offer := s.offers[productId];
        if quantity >= offer.moq {
          var score := Score(goal, offer.price, s.leadTimeDays, s.onTimeRate);
          if score > highest {
            highest := score;
            best := Some(k);
          }
        }
      }
      k := k + 1;
    }
  }
}

=== FILE: store.dfy ===
/** The in-memory entity store of `app/api/data.ts`: the seeded records,
    first-match lookups, the stock adjustment, and the two append operations
    that generate identifiers from per-process counters. The module-level
    arrays and counters become one immutable `Store` value that each
    operation takes and returns. */
module EntityStore {
  import opened Wrappers
  import opened Entities
  import opened Ids

  datatype Store = Store(
    products: seq<Product>,
    stock: seq<StockRecord>,
    suppliers: seq<Supplier>,
    purchaseOrders: seq<PurchaseOrder>,
    returnTickets: seq<ReturnTicket>,
    poCounter: nat,
    returnCounter: nat)

  const PoPrefix := "PO-"
  const ReturnPrefix := "RT-"

  /** `Array.prototype.find`: the position of the first element whose key is `id`. */
  function FirstIndex<T>(s: seq<T>, key: T -> string, id: string): (r: Option<nat>)
    ensures r.None? <==> forall i | 0 <= i < |s| :: key(s[i]) != id
    ensures r.Some? ==> r.value < |s| && key(s[r.value]) == id
    ensures r.Some? ==> forall j | 0 <= j < r.value :: key(s[j]) != id
  {
    if |s| == 0 then None
    else if key(s[0]) == id then Some(0)
    else match FirstIndex(s[1..], key, id)
      case None => None
      case Some(i) => Some(i + 1)
  }

  function GetProduct(products: seq<Product>, id: string): (r: Option<Product>)
    ensures r.None? <==> forall i | 0 <= i < |products| :: products[i].id != id
    ensures r.Some? ==> exists i | 0 <= i < |products| ::
      products[i] == r.value && r.value.id == id && forall j | 0 <= j < i :: products[j].id != id
  {
    match FirstIndex(products, (p: Product) => p.id, id)
    case None => None
    case Some(i) => Some(products[i])
  }

  function GetStock(stock: seq<StockRecord>, productId: string): (r: Option<StockRecord>)
    ensures r.None? <==> forall i | 0 <= i < |stock| :: stock[i].productId != productId
    ensures r.Some? ==> exists i | 0 <= i < |stock| ::
      stock[i] == r.value && r.value.productId == productId
      && forall j | 0 <= j < i :: stock[j].productId != productId
  {
    match FirstIndex(stock, (s: StockRecord) => s.productId, productId)
    case None => None
    case Some(i) => Some(stock[i])
  }

  function GetSupplier(suppliers: seq<Supplier>, id: string): (r: Option<Supplier>)
    ensures r.None? <==> forall i | 0 <= i < |suppliers| :: suppliers[i].id != id
    ensures r.Some? ==> exists i | 0 <= i < |suppliers| ::
      suppliers[i] == r.value && r.value.id == id && forall j | 0 <= j < i :: suppliers[j].id != id
  {
    match FirstIndex(suppliers, (s: Supplier) => s.id, id)
    case None => None
    case Some(i) => Some(suppliers[i])
  }

  /** Each supplier if it offers the product (`hasOwnProperty` on its offers), else nothing. */
  function OfferedBy(suppliers: seq<Supplier>, productId: string): (os: seq<Option<Supplier>>)
    ensures |os| == |suppliers|
    ensures forall i | 0 <= i < |suppliers| ::
      os[i] == if productId in suppliers[i].offers then Some(suppliers[i]) else None
  {
    seq(|suppliers|, i requires 0 <= i < |suppliers| =>
      if productId in suppliers[i].offers then Some(suppliers[i]) else None)
  }

  /** The suppliers that offer a product, in store order (`suppliers.filter`). */
  function SuppliersOffering(suppliers: seq<Supplier>, productId: string): (r: seq<Supplier>)
    ensures |r| <= |suppliers|
    ensures forall i | 0 <= i < |r| :: productId in r[i].offers
    ensures forall s :: s in r <==> s in suppliers && productId in s.offers
  {
    OfferingKeepsOrder(suppliers, productId);
    OfferingMembers(suppliers, productId);
    Present(OfferedBy(suppliers, productId))
  }

  /** Each kept supplier is the offering supplier at its store position, and
      the positions strictly increase. */
  lemma OfferingKeepsOrder(suppliers: seq<Supplier>, productId: string)
    ensures var r := Present(OfferedBy(suppliers, productId));
      var idx := PresentOrigins(OfferedBy(suppliers, productId));
      && |idx| == |r|
      && (forall k | 0 <= k < |r| ::
            idx[k] < |suppliers| && r[k] == suppliers[idx[k]] && productId in r[k].offers)
      && (forall k, m | 0 <= k < m < |r| :: idx[k] < idx[m])
  {
    var os := OfferedBy(suppliers, productId);
    var r := Present(os);
    var idx := PresentOrigins(os);
    forall k | 0 <= k < |r|
      ensures idx[k] < |suppliers| && r[k] == suppliers[idx[k]] && productId in r[k].offers
    {
      assert os[idx[k]] == Some(r[k]);
    }
  }

  /** Every supplier that offers the product is kept. */
  lemma {:induction false} OfferingKeepsAll(suppliers: seq<Supplier>, productId: string)
    ensures forall i | 0 <= i < |suppliers| && productId in suppliers[i].offers ::
      exists k | 0 <= k < |PresentOrigins(OfferedBy(suppliers, productId))| ::
        PresentOrigins(OfferedBy(suppliers, productId))[k] == i
  {
    var os := OfferedBy(suppliers, productId);
    var idx := PresentOrigins(os);
    forall i | 0 <= i < |suppliers| && productId in suppliers[i].offers
      ensures exists k | 0 <= k < |idx| :: idx[k] == i
    {
      assert os[i].Some?;
      PresentOriginsComplete(os, i);
    }
    assert PresentOrigins(OfferedBy(suppliers, productId)) == idx;
  }

  /** The kept suppliers are exactly the offering ones. */
  lemma OfferingMembers(suppliers: seq<Supplier>, productId: string)
    ensures forall s :: s in Present(OfferedBy(suppliers, productId)) <==> s in suppliers && productId in s.offers
  {
    var os := OfferedBy(suppliers, productId);
    var r := Present(os);
    var idx := PresentOrigins(os);
    OfferingKeepsOrder(suppliers, productId);
    OfferingKeepsAll(suppliers, productId);
    forall s | s in suppliers && productId in s.offers
      ensures s in r
    {
      var i :| 0 <= i < |suppliers| && suppliers[i] == s;
      var k :| 0 <= k < |idx| && idx[k] == i;
      assert r[k] == s;
    }
  }

  /** The filter keeps store order and drops no offering supplier: the kept
      suppliers sit at strictly increasing store positions, and every
      supplier that offers the product is kept. */
  lemma OfferingFollowsSuppliers(suppliers: seq<Supplier>, productId: string)
    ensures var r := SuppliersOffering(suppliers, productId);
      var idx := PresentOrigins(OfferedBy(suppliers, productId));
      && |idx| == |r|
      && (forall k | 0 <= k < |r| ::
            idx[k] < |suppliers| && r[k] == suppliers[idx[k]] && productId in r[k].offers)
      && (forall k, m | 0 <= k < m < |r| :: idx[k] < idx[m])
      && (forall i | 0 <= i < |suppliers| && productId in suppliers[i].offers ::
            exists k | 0 <= k < |r| :: idx[k] == i)
  {
    OfferingKeepsOrder(suppliers, productId);
    OfferingKeepsAll(suppliers, productId);
  }

  /** The result of `updateStockQuantity`: whether a record was found, and the store after. */
  datatype StockUpdate = StockUpdate(found: bool, store: Store)

  /** `updateStockQuantity`: adds `change` to the first stock record of the
      product and stamps it with `now`; reports false and changes nothing
      when the product has no stock record. */
  function UpdateStockQuantity(st: Store, productId: string, change: int, now: int): (r: StockUpdate)
    ensures r.found <==> exists i | 0 <= i < |st.stock| :: st.stock[i].productId == productId
    ensures !r.found ==> r.store == st
    ensures |r.store.stock| == |st.stock|
    ensures r.found ==> exists i | 0 <= i < |st.stock| ::
      && st.stock[i].productId == productId
      && (forall j | 0 <= j < i :: st.stock[j].productId != productId)
      && r.store.stock[i] == st.stock[i].(quantityOnHand := st.stock[i].quantityOnHand + change, lastUpdated := At(now))
      && (forall j | 0 <= j < |st.stock| && j != i :: r.store.stock[j] == st.stock[j])
    ensures r.store.(stock := st.stock) == st
  {
    match FirstIndex(st.stock, (s: StockRecord) => s.productId, productId)
    case None => StockUpdate(false, st)
    case Some(i) =>
      var item := st.stock[i];
      var updated := item.(quantityOnHand := item.quantityOnHand + change, lastUpdated := At(now));
      StockUpdate(true, st.(stock := st.stock[i := updated]))
  }

  /** A record the store created, together with the store after the append. */
  datatype Appended<T> = Appended(record: T, store: Store)

  /** `addPurchaseOrder`: bumps the counter, builds the id from the date stamp
      and the padded counter, stamps the order date, copies the draft, and
      appends the order. */
  function AddPurchaseOrder(st: Store, draft: OrderDraft, stamp: string, now: int): (r: Appended<PurchaseOrder>)
    ensures r.store.poCounter == st.poCounter + 1
    ensures r.store.purchaseOrders == st.purchaseOrders + [r.record]
    ensures r.store.(purchaseOrders := st.purchaseOrders, poCounter := st.poCounter) == st
    ensures r.record.id == GeneratedId(PoPrefix, stamp, r.store.poCounter)
    ensures r.record.orderDate == At(now)
    ensures DraftOf(r.record) == draft
  {
    var n := st.poCounter + 1;
    var po := PurchaseOrder(
      GeneratedId(PoPrefix, stamp, n), draft.supplierId, draft.productId, draft.quantity,
      At(now), draft.expectedDelivery, draft.actualDelivery, draft.status);
    Appended(po, st.(purchaseOrders := st.purchaseOrders + [po], poCounter := n))
  }

  /** The caller-supplied part of a purchase order. */
  function DraftOf(po: PurchaseOrder): OrderDraft
  {
    OrderDraft(po.supplierId, po.productId, po.quantity, po.expectedDelivery, po.actualDelivery, po.status)
  }

  /** `addReturnTicket`: the same counter, id and append behaviour on the returns. */
  function AddReturnTicket(st: Store, draft: ReturnDraft, stamp: string, now: int): (r: Appended<ReturnTicket>)
    ensures r.store.returnCounter == st.returnCounter + 1
    ensures r.store.returnTickets == st.returnTickets + [r.record]
    ensures r.store.(returnTickets := st.returnTickets, returnCounter := st.returnCounter) == st
    ensures r.record.id == GeneratedId(ReturnPrefix, stamp, r.store.returnCounter)
    ensures r.record.returnDate == At(now)
    ensures ReturnDraftOf(r.record) == draft
  {
    var n := st.returnCounter + 1;
    var rt := ReturnTicket(
      GeneratedId(ReturnPrefix, stamp, n), draft.productId, draft.quantityReturned,
      draft.reason, At(now), draft.supplierId);
    Appended(rt, st.(returnTickets := st.returnTickets + [rt], returnCounter := n))
  }

  function ReturnDraftOf(rt: ReturnTicket): ReturnDraft
  {
    ReturnDraft(rt.productId, rt.quantityReturned, rt.reason, rt.supplierId)
  }

  // ---------------------------------------------------------------------------
  // Identifier uniqueness

  /** The sequence numbers `1..counter`, each used at most once. */
  ghost predicate CountedNumbers(nums: seq<nat>, counter: nat)
  {
    && (forall i | 0 <= i < |nums| :: 1 <= nums[i] <= counter)
    && (forall i, j | 0 <= i < j < |nums| :: nums[i] != nums[j])
  }

  function SequenceNumbers(prefix: string, ids: seq<string>): (nums: seq<nat>)
    ensures |nums| == |ids| && forall i | 0 <= i < |ids| :: nums[i] == SequenceNumber(prefix, ids[i])
  {
    seq(|ids|, i requires 0 <= i < |ids| => SequenceNumber(prefix, ids[i]))
  }

  /** Every id carries a sequence number between 1 and the counter, and no two
      ids carry the same one. */
  ghost predicate CountedIds(prefix: string, ids: seq<string>, counter: nat)
  {
    CountedNumbers(SequenceNumbers(prefix, ids), counter)
  }

  /** The identifiers of a sequence of records, in order. */
  function IdsOf<T>(records: seq<T>, id: T -> string): (ids: seq<string>)
    ensures |ids| == |records| && forall i | 0 <= i < |records| :: ids[i] == id(records[i])
  {
    seq(|records|, i requires 0 <= i < |records| => id(records[i]))
  }

  function PoId(po: PurchaseOrder): string { po.id }

  function ReturnId(rt: ReturnTicket): string { rt.id }

  /** The store invariant the counters maintain. */
  ghost predicate IdsCounted(st: Store)
  {
    && CountedIds(PoPrefix, IdsOf(st.purchaseOrders, PoId), st.poCounter)
    && CountedIds(ReturnPrefix, IdsOf(st.returnTickets, ReturnId), st.returnCounter)
  }

  lemma CountedIdsDistinct(prefix: string, ids: seq<string>, counter: nat)
    requires CountedIds(prefix, ids, counter)
    ensures forall i, j | 0 <= i < j < |ids| :: ids[i] != ids[j]
  {
    var nums := SequenceNumbers(prefix, ids);
    forall i, j | 0 <= i < j < |ids|
      ensures ids[i] != ids[j]
    {
      assert nums[i] != nums[j];
    }
  }

  /** The next counter value is fresh. */
  lemma AppendNextCounted(nums: seq<nat>, counter: nat)
    requires CountedNumbers(nums, counter)
    ensures CountedNumbers(nums + [counter + 1], counter + 1)
  {
  }

  /** Appending an id generated from the next counter value keeps the ids counted. */
  lemma AppendGeneratedCounted(prefix: string, ids: seq<string>, counter: nat, stamp: string)
    requires CountedIds(prefix, ids, counter)
    requires |stamp| == DateStampLength
    ensures CountedIds(prefix, ids + [GeneratedId(prefix, stamp, counter + 1)], counter + 1)
  {
    var id := GeneratedId(prefix, stamp, counter + 1);
    SequenceNumberOfGenerated(prefix, stamp, counter + 1);
    assert SequenceNumbers(prefix, ids + [id]) == SequenceNumbers(prefix, ids) + [counter + 1];
    AppendNextCounted(SequenceNumbers(prefix, ids), counter);
  }

  /** Appending a purchase order keeps every purchase order id unique. */
  lemma AddPurchaseOrderKeepsIdsUnique(st: Store, draft: OrderDraft, stamp: string, now: int)
    requires IdsCounted(st)
    requires |stamp| == DateStampLength
    ensures IdsCounted(AddPurchaseOrder(st, draft, stamp, now).store)
    ensures var pos := AddPurchaseOrder(st, draft, stamp, now).store.purchaseOrders;
      forall i, j | 0 <= i < j < |pos| :: pos[i].id != pos[j].id
  {
    var r := AddPurchaseOrder(st, draft, stamp, now);
    AppendGeneratedCounted(PoPrefix, IdsOf(st.purchaseOrders, PoId), st.poCounter, stamp);
    assert IdsOf(r.store.purchaseOrders, PoId) == IdsOf(st.purchaseOrders, PoId) + [r.record.id];
    CountedIdsDistinct(PoPrefix, IdsOf(r.store.purchaseOrders, PoId), r.store.poCounter);
  }

  /** Appending a return ticket keeps every return id unique. */
  lemma AddReturnTicketKeepsIdsUnique(st: Store, draft: ReturnDraft, stamp: string, now: int)
    requires IdsCounted(st)
    requires |stamp| == DateStampLength
    ensures IdsCounted(AddReturnTicket(st, draft, stamp, now).store)
    ensures var rts := AddReturnTicket(st, draft, stamp, now).store.returnTickets;
      forall i, j | 0 <= i < j < |rts| :: rts[i].id != rts[j].id
  {
    var r := AddReturnTicket(st, draft, stamp, now);
    AppendGeneratedCounted(ReturnPrefix, IdsOf(st.returnTickets, ReturnId), st.returnCounter, stamp);
    assert IdsOf(r.store.returnTickets, ReturnId) == IdsOf(st.returnTickets, ReturnId) + [r.record.id];
    CountedIdsDistinct(ReturnPrefix, IdsOf(r.store.returnTickets, ReturnId), r.store.returnCounter);
  }

  // ---------------------------------------------------------------------------
  // Seeded records

  function SeededProducts(): seq<Product>
  {
    [ Product("P001", "Eco-Friendly Water Bottle", "EFWB001", "Sustainable and insulated water bottle.", 500.0, 999.0, 0.15, 10.0),
      Product("P002", "Smart Home Hub 2.0", "SHH2001", "Central control for smart devices.", 2500.0, 4999.0, 0.20, 3.0),
      Product("P003", "Organic Coffee Beans (500g)", "OCB5001", "Ethically sourced arabica beans.", 300.0, 599.0, 0.10, 25.0),
      Product("P004", "Ergonomic Office Chair", "EOC001", "Adjustable chair for long working hours.", 8000.0, 14999.0, 0.25, 1.0) ]
  }

  /** The seeded stock, stamped with the time the module was loaded. */
  function SeededStock(loadTime: int): seq<StockRecord>
  {
    [ StockRecord("P001", 80, "A1", At(loadTime)),
      StockRecord("P002", 10, "B2", At(loadTime)),
      StockRecord("P003", 150, "C3", At(loadTime)),
      StockRecord("P004", 2, "D4", At(loadTime)) ]
  }

  function SeededSuppliers(): seq<Supplier>
  {
    [ Supplier("S001", "Global Supply Co.", "Alice Smith", "alice@globalsupply.com", "9876543210", 7, 0.95,
        map["P001" := Offer(480.0, 50), "P002" := Offer(2400.0, 5), "P003" := Offer(290.0, 100)]),
      Supplier("S002", "Rapid Parts Inc.", "Bob Johnson", "bob@rapidparts.com", "9123456789", 3, 0.85,
        map["P001" := Offer(520.0, 30), "P002" := Offer(2600.0, 3), "P004" := Offer(7900.0, 1)]),
      Supplier("S003", "Budget Wholesale", "Charlie Brown", "charlie@budgetwholesale.com", "9988776655", 10, 0.90,
        map["P001" := Offer(450.0, 100), "P003" := Offer(280.0, 200), "P004" := Offer(7500.0, 1)]) ]
  }

  function SeededPurchaseOrders(): seq<PurchaseOrder>
  {
    [ PurchaseOrder("PO-20250601-001", "S001", "P003", 200, At(1748768400000), At(1749373200000), None, Delayed),
      PurchaseOrder("PO-20250701-002", "S002", "P001", 50, At(1751364000000), At(1751623200000), None, Pending) ]
  }

  function SeededReturns(): seq<ReturnTicket>
  {
    [ ReturnTicket("RT-20250615-001", "P001", 5, "damaged_in_transit", At(1749997800000), Some("S001")) ]
  }

  /** The store at module load: the counters start at the number of seeded records. */
  function InitialStore(loadTime: int): (st: Store)
    ensures st.poCounter == |st.purchaseOrders| && st.returnCounter == |st.returnTickets|
  {
    Store(SeededProducts(), SeededStock(loadTime), SeededSuppliers(),
      SeededPurchaseOrders(), SeededReturns(), |SeededPurchaseOrders()|, |SeededReturns()|)
  }

  lemma ParseSmall(s: string, d: char)
    requires s == ['0', '0', d] && IsDigit(d)
    ensures AllDigits(s) && ParseDigits(s) == DigitValue(d)
  {
    assert s[..2] == "00" && s[..2][..1] == "0" && s[..2][..1][..0] == "";
    assert ParseDigits("0") == 0;
    assert ParseDigits("00") == 0;
  }

  /** The seeded ids carry the sequence numbers 1 and 2 (and 1 for returns),
      so ids generated from the counters never collide with them. */
  lemma InitialStoreIdsCounted(loadTime: int)
    ensures IdsCounted(InitialStore(loadTime))
  {
    var pos := SeededPurchaseOrders();
    ParseSmall(pos[0].id[12..], '1');
    ParseSmall(pos[1].id[12..], '2');
    var rts := SeededReturns();
    ParseSmall(rts[0].id[12..], '1');
  }
}

=== FILE: wrappers.dfy ===
/** Option and Result datatypes used for lookups that may miss and for
    operations that may be refused. */
module Wrappers {

  /** A value that may be absent: what `Array.prototype.find` returns. */
  datatype Option<+T> = None | Some(value: T)

  /** The outcome of an operation that either succeeds or is refused with an error. */
  datatype Result<+R, +E> = Success(value: R) | Failure(error: E)

  /** The values of the present entries, in order. */
  function Present<T>(os: seq<Option<T>>): (r: seq<T>)
    ensures |r| <= |os|
  {
    if |os| == 0 then []
    else
      var init := Present(os[..|os| - 1]);
      match os[|os| - 1]
      case None => init
      case Some(v) => init + [v]
  }

  /** For each value `Present` keeps, the position it came from: positions
      increase and each holds that value. */
  ghost function PresentOrigins<T>(os: seq<Option<T>>): (idx: seq<nat>)
    ensures |idx| == |Present(os)|
    ensures forall k | 0 <= k < |idx| :: idx[k] < |os| && os[idx[k]] == Some(Present(os)[k])
    ensures forall k, m | 0 <= k < m < |idx| :: idx[k] < idx[m]
  {
    if |os| == 0 then []
    else
      var n := |os| - 1;
      var prefix := os[..n];
      var init := PresentOrigins(prefix);
      var p := Present(prefix);
      var r := Present(os);
      assert r == if os[n].Some? then p + [os[n].value] else p;
      var idx := if os[n].Some? then init + [n] else init;
      assert forall k | 0 <= k < |idx| :: idx[k] < |os| && os[idx[k]] == Some(r[k]) by {
        forall k | 0 <= k < |idx|
          ensures idx[k] < |os| && os[idx[k]] == Some(r[k])
        {
          if k < |init| {
            assert idx[k] == init[k] && r[k] == p[k];
            assert prefix[init[k]] == os[init[k]];
          }
        }
      }
      idx
  }

  /** Every present entry is the origin of some kept value. */
  lemma {:induction false} PresentOriginsComplete<T>(os: seq<Option<T>>, i: nat)
    requires i < |os| && os[i].Some?
    ensures exists k | 0 <= k < |PresentOrigins(os)| :: PresentOrigins(os)[k] == i
  {
    var n := |os| - 1;
    var prefix := os[..n];
    var init := PresentOrigins(prefix);
    assert PresentOrigins(os) == if os[n].Some? then init + [n] else init;
    if i == n {
      assert PresentOrigins(os)[|PresentOrigins(os)| - 1] == n;
    } else {
      assert prefix[i] == os[i];
      PresentOriginsComplete(prefix, i);
      var k :| 0 <= k < |init| && init[k] == i;
      assert PresentOrigins(os)[k] == i;
    }
  }
}
